=== FILE: README.md ===
# No One Left on Car: the interlock and escalation core, in Dafny

The NOC simulator drives a vehicle, its door and an occupant detector from one Tk window, `NOCGui` in gui.py. It also keeps a small vehicle/door/engine record, `StateManager` in state_manager.py. This project models the decision logic of both:

- when the door may be opened;
- how the door flags follow the door;
- when occupant detection is armed, and how the pre-alert countdown ends;
- what the alert does at the end of the countdown (start the automatic door release and/or the alert loop);
- how the automatic release retries before it escalates to SOS;
- how the driver's acknowledgement ("turn off alarm") stops everything and keeps detection from re-arming until the vehicle moves again.

Modules:

- `Wrappers`: `Option`.
- `StateManager`: the `StateManager` record as an immutable datatype with one pure function per method. It also has the invariant that the vehicle is never both moving and stopped.
- `Countdown`: one invocation of `_update_countdown` (`Tick`), and a whole run of invocations (`Count`) given whether detection is still active at each one.
- `AutoOpen`: `_auto_open_door_sequence` as a method with nested loops. It takes the attempts setting (`None` when it does not parse as an integer), the lock reading at each attempt, and the first stop-flag check that finds the flag set. It returns the outcome, the number of countdown ticks it announced, and the number of SOS sequences it spawned. `Describes` is the independent specification of the result, and `DescribesUnique` shows that this specification determines the result.
- `Gui`: the window's state as one record (`Host`), with every callback as a pure function on it. `Step` applies one event: a press on an enabled control, a delayed `root.after` continuation coming due, a detection count, or a task finishing. `Run` applies a trace of events. Pending continuations are counters, and they may come due in any order, so any order the real timer queue can deliver them in is allowed. The model also allows orders the timer queue cannot produce. Two exceptions are listed under "## Left out": the writes that the SOS and authority threads make to the stop flags, and a second countdown chain running beside the first. Traces that depend on either are not modelled.
- `GuiTraces`: invariants over all traces, the acknowledgement guard, and the two counterexample traces of the findings below. `Gui.Step` has no contract of its own. What it promises is stated here: `DisabledPressIgnored` for presses on disabled controls, `SettleContinuationRunsOnce`, `DeferredContinuationRunsOnce` and `CountdownCallRunsOnce` for continuations consumed once, and `VariantsAgree` for where the two variants differ.

Two callbacks exist in two versions, chosen by `Variant`:

- `AsWritten` follows the source.
- `Corrected` re-checks, when the callback finally runs, the condition it was scheduled under. The settle continuation checks that the vehicle is not moving and that no later Stop is still settling. The detection start checks that the vehicle is still fully stopped, the door still closed, and that nothing acknowledged or armed it meanwhile.

The interlock lemmas (`StepKeepsInterlocked` and what follows from it) and the acknowledgement lemmas `StepKeepsSilent` and `AcknowledgementKeepsDetectionOff` are stated for `Corrected`. The two counterexamples of the findings are stated for `AsWritten`. The door-flag, occupant and re-arm lemmas hold for both variants. So does the engine-restart trace. The automatic-release trace is stated for `Corrected`, to show that the correction does not prevent it.

## Model

| member | source | states |
|---|---|---|
| StateManager.Fresh | state_manager.py:2-9 | A new manager has the vehicle not moving and not stopped, the door closed and the engine off. |
| StateManager.StartVehicle | state_manager.py:11-14 | Starting sets moving and engine on and clears stopped; the door is untouched. |
| StateManager.StopVehicle | state_manager.py:16-18 | Stopping clears moving and sets stopped; engine and door are untouched. |
| StateManager.OpenDoor | state_manager.py:20-21 | Opening sets the door open and changes no other field. |
| StateManager.CloseDoor | state_manager.py:23-24 | Closing sets the door closed and changes no other field. |
| StateManager.TurnOffEngine | state_manager.py:26-27 | Turning the engine off clears only the engine flag. |
| StateManager.DoorOperationsIdempotent | state_manager.py:20-24 | Opening twice equals opening once; closing twice equals closing once. |
| StateManager.ApplyKeepsConsistent | state_manager.py:11-27 | No single operation makes a consistent record (not both moving and stopped) inconsistent. |
| StateManager.RunKeepsConsistent | state_manager.py:11-27 | Any sequence of operations keeps a consistent record consistent (proof by induction on the sequence). |
| StateManager.NeverMovingAndStopped | state_manager.py:4-18 | From a fresh manager, no sequence of operations makes the vehicle moving and stopped at once. |
| Countdown.Tick | gui.py:435-447 | An invocation quits iff detection is inactive, fires the alert iff detection is active and zero seconds remain, and otherwise announces the positive remaining count. |
| Countdown.Count | gui.py:435-447 | A run from n announces n, n-1, … in order, only while detection is active. It alerts iff detection stays active for n+1 invocations, and then it has announced exactly n values. It is abandoned iff some invocation up to the n+1-th finds detection inactive, and it stops at that first one. |
| Countdown.Descending | gui.py:440-442 | The announcements of a full countdown: n values, the i-th being n - i. |
| Countdown.FullCountdownAlerts | gui.py:435-447 | With detection active throughout, the countdown announces n, …, 1 and then alerts once. |
| Countdown.InactiveCountdownAbandons | gui.py:436-439 | If detection is first found inactive at invocation k, the countdown announced exactly the first k values and never alerts. |
| AutoOpen.AutoOpenDoorSequence | gui.py:464-490 | The loop's report meets `Describes`. A non-integer setting gives an error with nothing spawned. Otherwise the outcome is success at the first attempt whose lock reading is unlocked, with no SOS; or, after every attempt was locked, ten ticks per attempt and exactly one SOS; or cancellation with no SOS when the stop flag is seen first. The tick count is the number announced before the deciding check. |
| AutoOpen.DescribesUnique | gui.py:464-490 | Two reports that both meet `Describes` for the same inputs are equal: the loop has exactly one outcome. |
| AutoOpen.FirstAttemptSucceeds | gui.py:468-479 | Three attempts with the door unlocked at the first reading: opened at attempt 1 after 10 ticks, no SOS. |
| AutoOpen.LockedThroughoutSendsSos | gui.py:468-486 | Two attempts with the door always locked: 20 ticks, then exactly one SOS. |
| AutoOpen.NoAttemptsSendsSos | gui.py:468-486 | A setting of zero or fewer attempts goes straight to SOS with no ticks, whatever the stop flag does. |
| AutoOpen.StopDuringLastPauseStillSendsSos | gui.py:469-486 | After n locked attempts, a stop flag first seen at check 12n is never seen at all: it was raised during the last attempt's two-second pause, and no check follows that pause. The loop still reports n times ten ticks and spawns exactly one SOS. |
| Gui.Init | gui.py:26-52 | The constructed window: door fully closed, vehicle not fully stopped, detection off, nothing acknowledged, switch unlocked, count 0, every control disabled, no task alive, no countdown pending, fresh manager, every stop flag clear and no continuation pending. |
| Gui.EnginePrepared | gui.py:240-253 | Once the system is up, Move is the only enabled control and nothing else changes. |
| Gui.StartMoving | gui.py:329-347 | Moving starts the manager's vehicle, clears "fully stopped", detection and the acknowledgement, and resets the door flags to fully closed. It enables only Stop among the vehicle/door controls. Every other field is left as it was: the tasks, stop flags, pending continuations, countdown, lock switch and count. |
| Gui.StopVehicle | gui.py:349-361 | Stopping stops the manager's vehicle and switches detection off, but does not yet mark the vehicle fully stopped. It disables Stop, enables Move and schedules exactly one settle continuation. Every other field is left as it was. |
| Gui.VehicleStoppedCompletelyAsWritten | gui.py:363-371 | The settle continuation as written marks the vehicle fully stopped and enables Open, whatever the vehicle is doing. It also disables Stop and the lock, and changes nothing else. |
| Gui.VehicleStoppedCompletely | gui.py:363-371 | The corrected settle continuation marks "fully stopped" only when the vehicle is not moving and no later Stop is still settling. In that case it behaves as written; otherwise it changes nothing. |
| Gui.OpenDoor | gui.py:373-389 | Open changes nothing unless the vehicle is fully stopped. When accepted, it raises the auto-open stop flag if that task is alive, opens the manager's door, moves enablement from Open/Move/lock to Close, and schedules one open-settle continuation. Every other field is left as it was. |
| Gui.DoorOpenedCompletely | gui.py:391-399 | The open continuation sets the door flags to fully open, enables Close, and enables acknowledgement when detection is active (otherwise leaving it as it was). |
| Gui.CloseDoor | gui.py:401-409 | Close closes the manager's door, disables Open, Close and acknowledgement, schedules one close-settle continuation, and leaves the door flags and every other field alone. |
| Gui.DoorClosedCompletely | gui.py:411-422 | The close continuation sets the door flags to fully closed and enables Open, lock and Move. It schedules exactly one more detection start iff the alarm was not acknowledged and detection is not active, and never cancels one already scheduled. Nothing else changes. |
| Gui.StartDetectionAsWritten | gui.py:424-433 | Detection as written is armed unconditionally; the countdown is started at five seconds, leaving four pending. Open is enabled, acknowledgement disabled, and nothing else changes. |
| Gui.StartDetection | gui.py:424-433 | Corrected detection arms only while the vehicle is fully stopped, the manager's door is still closed, and nothing has armed or acknowledged meanwhile. In that case it behaves as written; otherwise it is a no-op. |
| Gui.UpdateCountdown | gui.py:435-447 | On the host: a no-op when detection is inactive, schedules the next second while time remains, and calls the alert decision with the countdown cleared at zero. |
| Gui.InitiateAlertSound | gui.py:449-462 | Nothing happens unless detection is active. Afterwards an auto-open task is alive exactly when one already was or detection is active with at least one occupant. A live task is left alone, and a newly started one has its stop flag clear. An alert loop is alive afterwards exactly when one already was or detection is active, and a newly started one has its stop flag cleared. Nothing else changes. |
| Gui.AutoOpenFinished | gui.py:464-490 | The auto-open task is no longer alive, and exactly one door-open continuation is queued iff it succeeded. No other continuation or field changes. |
| Gui.SimulateDoorOpenedSuccessfully | gui.py:555-566 | The automatic open acts only while detection is active. It then opens the manager's door, sets the door flags to fully open, enables Close and acknowledgement, and disables Open and lock. Nothing else changes. |
| Gui.TurnOffAlarm | gui.py:612-635 | Acknowledgement sets all four stop flags, cancels the pending countdown, switches detection off and records the acknowledgement. It disables Move, Open and itself and enables Close. Nothing else changes. |
| Gui.ToggleVerticalSwitch | gui.py:667-679 | Ignored while the switch is disabled. Otherwise it flips the lock. Locking disables Open. Unlocking enables Open if the vehicle is fully stopped and the door fully closed, and otherwise leaves it as it was. |
| Gui.UpdateDetectionCount | gui.py:585-589 | A count is recorded iff detection is active; nothing else changes. |
| Gui.AlertLoopFinished | gui.py:568-578 | The alert loop ends exactly when it sees its stop flag. Nothing else changes. |
| Gui.JoinThreadsAndShutdown | gui.py:278-300 | Shutdown sets every stop flag, cancels the countdown, leaves no task alive and queues one final reset. The manager, door flags, detection, controls and every other field are left as they were. |
| Gui.EngineStopped | gui.py:308-326 | The final reset: not fully stopped, door fully closed, detection off, every control disabled. The manager's door and vehicle, the tasks, stop flags and every other field are left as they were. |
| GuiTraces.DisabledPressIgnored | gui.py:123-141 | A press on a disabled Move, Stop, Open, Close or acknowledgement control changes nothing. The same holds for a lock-switch press while the switch is disabled (Tk delivers presses only to enabled controls). |
| GuiTraces.SettleContinuationRunsOnce | gui.py:361-409 | The stop, door-open and door-close settle continuations (scheduled at lines 361, 389 and 409) change nothing when none is pending. A pending one is consumed exactly once. |
| GuiTraces.DeferredContinuationRunsOnce | gui.py:306-479 | The detection start (line 422), the automatic-open success (line 479) and the final engine reset (line 306) change nothing when none is pending. A pending one is consumed exactly once. |
| GuiTraces.CountdownCallRunsOnce | gui.py:435-447 | The pending countdown call runs once. Without one, nothing happens. Found inactive, it is dropped. Otherwise it schedules the next second, or at zero clears itself and takes the alert decision. |
| GuiTraces.VariantsAgree | gui.py:363-433 | The as-written and corrected event handling differ only in the settle continuation and the detection start. They agree on those as well whenever the condition each was scheduled under still holds: for the settle continuation, the vehicle is not moving and it is the last Stop still pending; for the detection start, `MayArm` holds. |
| GuiTraces.CountdownReachesAlert | gui.py:435-447 | On the window, a countdown with k seconds left and detection active throughout takes the alert decision after exactly k + 1 due calls. It does so once, on the state as it was, and leaves no countdown call pending. |
| GuiTraces.StepKeepsDoorPair | gui.py:34-35 | Every event, in either variant, keeps the door flags complementary. |
| GuiTraces.RunKeepsDoorPair | gui.py:34-35 | Every trace keeps the door flags complementary (induction over the trace). |
| GuiTraces.DoorFlagsComplementary | gui.py:34-35 | In every reachable state, "door fully open" holds iff "door fully closed" does not. |
| GuiTraces.AutoOpenNeedsOccupant | gui.py:449-456 | No event starts the auto-open task unless at least one occupant was counted. |
| GuiTraces.StepKeepsAcknowledged | gui.py:421-422 | After acknowledgement, every event other than Move keeps the acknowledgement and schedules no detection. |
| GuiTraces.AcknowledgementBlocksRearm | gui.py:421-422 | After acknowledgement, a trace without Move keeps the acknowledgement and never schedules detection. |
| GuiTraces.StepKeepsSilent | gui.py:421-433 | With the corrected callbacks, acknowledged and detection off, every event other than Move keeps detection off and starts no task. |
| GuiTraces.AcknowledgementKeepsDetectionOff | gui.py:612-635 | With the corrected callbacks, after acknowledgement a trace without Move never turns detection back on and starts no auto-open task or alert loop. |
| GuiTraces.AcknowledgementStopsEverything | gui.py:612-629 | Pressing the enabled acknowledgement control sets all four stop flags, cancels the countdown, switches detection off and records the acknowledgement. |
| GuiTraces.StepKeepsInterlocked | gui.py:329-433 | With the corrected callbacks, every event keeps the interlock: door flags complementary; "fully stopped" only when not moving, with no Stop still settling and Stop disabled; detection only when fully stopped. |
| GuiTraces.RunKeepsInterlocked | gui.py:329-433 | Every trace keeps the interlock (induction over the trace). |
| GuiTraces.DetectionOnlyWhileStationary | gui.py:411-433 | In every reachable state, detection is active only while the vehicle is fully stopped and not moving. |
| GuiTraces.DoorOnlyOpensWhenStationary | gui.py:373-381 | In every reachable state, an event that opens the door happens only with the vehicle fully stopped and not moving, no Stop still settling and Stop disabled, and leaves it not moving. |
| GuiTraces.StaleStopSettleOpensDoorWhileMoving | gui.py:349-377 | As written: Stop, then Move before the settle delay runs out. The stale settle continuation marks the moving vehicle fully stopped, and Open then opens its door. |
| GuiTraces.StopMoveStopWaitsForLastSettle | gui.py:349-371 | Corrected: Stop, Move, Stop, then the first Stop's settle continuation fires. The vehicle is not marked fully stopped and Open stays disabled while the second Stop is still settling. Its continuation then marks the vehicle fully stopped and enables Open. |
| GuiTraces.StaleDetectionOpensDoorWhileMoving | gui.py:411-433 | As written: close the door, then Move before the detection delay runs out. Detection arms on the moving vehicle, counts an occupant, runs the countdown, and the automatic open then opens the door while the vehicle moves. |
| GuiTraces.AutoOpenSuccessOpensDoor | gui.py:555-561 | A pending automatic-open success opens the manager's door whenever detection is still active. It does not check whether the vehicle moves. |
| GuiTraces.MoveAfterAutoOpen | gui.py:555-566 | If the automatic open takes effect while Move is enabled, a press on Move then drives off with the manager's door open, while the door flags read fully closed. |
| GuiTraces.AutoReleaseLeavesMoveEnabled | gui.py:411-422 | With the corrected continuations, this situation is reachable. Park, close the door (which enables Move), detect one occupant and let the automatic open succeed: Move is still enabled, and pressing it moves the vehicle with the door open. |
| GuiTraces.RestartFacts | gui.py:308-336 | From a parked state with Open enabled, open the door, shut the engine down, bring it up again and press Move. The vehicle moves with the manager's door open, while the door flags read fully closed. |
| GuiTraces.EngineRestartDrivesOffWithDoorOpen | gui.py:686-689 | With either variant, this is reachable from the constructed window: park, open the door, restart the engine and press Move. The vehicle moves with the door open. |

## Left out

- Threads and their timing. `join` ordering, `is_alive` races and sleeps are reduced to one "alive" flag per task plus the four stop flags. A task finishing is an environment event.
- Real-time order of `root.after` continuations. Pending continuations are counters that come due in any order, so safety results cover every order the real queue can deliver them in, apart from the two exceptions below. Facts that depend on first-in-first-out order (for example, the door flags reading "fully open" only after the manager's door was opened) are not claimed.
- The pending countdown. `countdown_timer_id` is one optional pending value. Two countdown chains that the source could run side by side are merged into one, so traces with both chains running are not modelled.
- Writes by the SOS and authority threads to the stop flags. The SOS sequence sets the alert loop's stop flag and joins the loop (gui.py:513-515), so in the source the alert loop can end without any acknowledgement. The model does not reach that state: its alert loop ends only after acknowledgement or shutdown. The SOS and authority threads also clear the safety-instruction and authority stop flags on entry (gui.py:494, 539); in the model those two flags are only ever set. So an acknowledgement made during the last attempt's two-second pause is never seen by the auto-open loop (`AutoOpen.StopDuringLastPauseStillSendsSos`), and the SOS thread then clears the flag the acknowledgement set. The SOS sequence still runs. The model of the window does not follow the SOS thread that far.
- The auto-open task's result inside the window. The auto-open task's result is an arbitrary outcome carried by `AutoOpenDone`. Inside the window it is not tied to the lock switch or to `AutoOpen.AutoOpenDoorSequence`; that loop is modelled and proved on its own.
- The auto-open thread clearing its own stop flag on entry. This is modelled at the moment the thread is started.
- The attempts setting. The spinbox text and `int()` are abstracted to `Option<int>`: `None` stands for a value that raises, which is caught as an error.
- The SOS, safety-instruction and authority-notification sequences (gui.py:492-553). These are sleeps, floating-point minutes, sounds and messages; the model stops at "SOS spawned".
- Widgets, labels, images, the clock and uptime, and display options. These are UI. Only the enablement flags that act as interlocks are kept.
- The engine button and `start_engine`/`stop_engine`. Engine start-up is the `EngineReady` event, and shutdown is `ShutdownRequested` followed by `EngineOffDue`.
- Sound playback (notifier.py), Slack messages and session logs. These are foreign calls, network and file I/O.
- Person detection, tracking and frame annotation (detection.py). The count is an input event, and detection.py is not part of this model.
- The alert loop's choice of alarm or speaker sound. This is sound only; the loop is modelled by its stop flag.
- Automatic opening and the Move control. A successful automatic open leaves Move enabled while the door is open (gui.py:555-566). The model permits driving off with the door open, as `GuiTraces.AutoReleaseLeavesMoveEnabled` shows. An engine restart does the same without any automatic release. The shutdown reset marks the door fully closed without closing it, and `enable_controls` enables Move (gui.py:308-321, 686-689), as `GuiTraces.EngineRestartDrivesOffWithDoorOpen` shows. Neither is listed as a finding, because the source does not say what Move should do while the manager's door is open.

## Findings

| source | as written | input that shows it | evidently intended | confidence | as-written member | corrected member |
|---|---|---|---|---|---|---|
| gui.py:361-371 | The settle continuation scheduled by Stop marks the vehicle fully stopped and enables Open unconditionally, even if Move was pressed meanwhile | Engine ready, Move, Stop, Move within two seconds, settle continuation runs, then Open: the door opens while the vehicle moves | The continuation applies only if the vehicle is still stopped and no later Stop is still settling | not executed | GuiTraces.StaleStopSettleOpensDoorWhileMoving | GuiTraces.DoorOnlyOpensWhenStationary |
| gui.py:422-433 | The detection start scheduled by the door closing arms detection unconditionally, even if Move was pressed meanwhile | Vehicle stopped, Open, Close, close continuation runs, Move within one second, detection start runs, one occupant counted, countdown runs out, auto-open succeeds: the door opens while the vehicle moves | Detection starts only if the vehicle is still fully stopped and nothing acknowledged or armed it meanwhile | not executed | GuiTraces.StaleDetectionOpensDoorWhileMoving | GuiTraces.DetectionOnlyWhileStationary |

The corrected continuations are `Gui.VehicleStoppedCompletely` and `Gui.StartDetection`. The whole-trace safety lemmas use them.

=== FILE: auto_open.dfy ===
/**
 The automatic door-release retry loop (`NOCGui._auto_open_door_sequence`, gui.py).

 Each attempt checks the stop flag, counts down ten one-second ticks (checking the flag before
 each tick), checks the flag once more and then reads the lock switch: unlocked means success,
 locked means a logged failure and a two-second pause. When every attempt fails the SOS sequence
 is spawned. A setting that does not parse as an integer is logged and nothing is spawned.

 The stop flag is only ever set while the loop runs (the loop clears it when it starts), so its
 effect is captured by the index of the first flag check that finds it set: attempt i (from 1)
 makes checks 12 * (i - 1) .. 12 * (i - 1) + 11 before it reads the lock.
 */
module AutoOpen {
  import opened Wrappers

  /** Ticks counted down before each attempt reads the lock. */
  const CountdownTicks: nat := 10
  /** Stop-flag checks made by one attempt: one before, one per tick, one after the countdown. */
  const ChecksPerAttempt: nat := 12

  datatype Outcome =
    | Opened(attempt: nat)  // the lock was open at this attempt; the door-open continuation is scheduled
    | Exhausted             // every attempt found the door locked; the SOS sequence is spawned
    | Cancelled             // a flag check found the stop flag set; nothing further happens
    | ConfigError           // the attempts setting is not an integer; an error is logged

  /** How the loop ended, how many countdown ticks it announced, and how many SOS sequences it spawned. */
  datatype Report = Report(outcome: Outcome, ticks: nat, sosSpawned: nat)

  /** No flag check before check number `c` found the stop flag set. */
  predicate ClearBefore(stopAt: Option<nat>, c: int)
  {
    stopAt.None? || stopAt.value >= c
  }

  /** Attempts 1 .. n all observed the door locked. */
  ghost predicate LockedThrough(locked: nat -> bool, n: int)
  {
    forall k: nat :: 1 <= k <= n ==> locked(k)
  }

  /** Countdown ticks announced before flag check number `c`. */
  function TicksBefore(c: nat): nat
  {
    var r := c % ChecksPerAttempt;
    CountdownTicks * (c / ChecksPerAttempt) + (if r == 0 then 0 else if r <= CountdownTicks then r - 1 else CountdownTicks)
  }

  /**
   What the retry loop promises, for a given setting, lock observations and first stop check:
   success at the first attempt that observes the door unlocked, SOS after every attempt failed,
   cancellation with neither when the stop flag is seen first, an error for a non-integer setting.
   */
  ghost predicate Describes(setting: Option<int>, locked: nat -> bool, stopAt: Option<nat>, rep: Report)
  {
    && (rep.outcome == ConfigError <==> setting.None?)
    && (rep.outcome == ConfigError ==> rep.ticks == 0)
    && (rep.outcome.Opened? ==>
          && setting.Some?
          && 1 <= rep.outcome.attempt <= setting.value
          && !locked(rep.outcome.attempt)
          && LockedThrough(locked, rep.outcome.attempt - 1)
          && ClearBefore(stopAt, ChecksPerAttempt * rep.outcome.attempt)
          && rep.ticks == CountdownTicks * rep.outcome.attempt)
    && (rep.outcome == Exhausted <==>
          setting.Some? && LockedThrough(locked, setting.value) && ClearBefore(stopAt, ChecksPerAttempt * setting.value))
    && (rep.outcome == Exhausted ==>
          rep.ticks == CountdownTicks * (if setting.value > 0 then setting.value else 0))
    && (rep.outcome == Cancelled ==>
          && setting.Some? && stopAt.Some?
          && stopAt.value < ChecksPerAttempt * setting.value
          && LockedThrough(locked, stopAt.value / ChecksPerAttempt)
          && rep.ticks == TicksBefore(stopAt.value))
    && rep.sosSpawned == (if rep.outcome == Exhausted then 1 else 0)
  }

  lemma TicksBeforeInAttempt(i: nat, r: nat)
    requires r < ChecksPerAttempt
    ensures TicksBefore(ChecksPerAttempt * i + r)
         == CountdownTicks * i + (if r == 0 then 0 else if r <= CountdownTicks then r - 1 else CountdownTicks)
  {
    var c := ChecksPerAttempt * i + r;
    assert c / ChecksPerAttempt == i && c % ChecksPerAttempt == r;
  }

  /**
   The retry loop. `setting` is the attempts entry after `int()` (None when it raised), `locked(i)`
   is the lock switch as read by attempt i, and `stopAt` the first flag check that finds the stop
   flag set (None when none does).
   */
  method AutoOpenDoorSequence(setting: Option<int>, locked: nat -> bool, stopAt: Option<nat>) returns (rep: Report)
    ensures Describes(setting, locked, stopAt, rep)
  {
    if setting.None? {
      return Report(ConfigError, 0, 0);
    }
    var attempts := setting.value;
    var ticks: nat := 0;
    var check: nat := 0;
    var i: nat := 1;
    while i <= attempts
      invariant 1 <= i
      invariant attempts >= 1 ==> i <= attempts + 1
      invariant attempts < 1 ==> i == 1
      invariant check == ChecksPerAttempt * (i - 1)
      invariant ticks == CountdownTicks * (i - 1)
      invariant ClearBefore(stopAt, check)
      invariant LockedThrough(locked, i - 1)
      decreases attempts - i
    {
      if stopAt == Some(check) {
        TicksBeforeInAttempt(i - 1, 0);
        return Report(Cancelled, ticks, 0);
      }
      check := check + 1;
      var countdown := CountdownTicks;
      while countdown > 0
        invariant 0 <= countdown <= CountdownTicks
        invariant check == ChecksPerAttempt * (i - 1) + 1 + (CountdownTicks - countdown)
        invariant ticks == CountdownTicks * (i - 1) + (CountdownTicks - countdown)
        invariant ClearBefore(stopAt, check)
        decreases countdown
      {
        if stopAt == Some(check) {
          TicksBeforeInAttempt(i - 1, check - ChecksPerAttempt * (i - 1));
          return Report(Cancelled, ticks, 0);
        }
        check := check + 1;
        ticks := ticks + 1;
        countdown := countdown - 1;
      }
      if stopAt == Some(check) {
        TicksBeforeInAttempt(i - 1, ChecksPerAttempt - 1);
        return Report(Cancelled, ticks, 0);
      }
      check := check + 1;
      if !locked(i) {
        return Report(Opened(i), ticks, 0);
      }
      i := i + 1;
    }
    return Report(Exhausted, ticks, 1);
  }

  /** The promise pins down the result: the loop has exactly one outcome, tick count and SOS count. */
  lemma DescribesUnique(setting: Option<int>, locked: nat -> bool, stopAt: Option<nat>, a: Report, b: Report)
    requires Describes(setting, locked, stopAt, a)
    requires Describes(setting, locked, stopAt, b)
    ensures a == b
  {
  }

  /** Three attempts with the door unlocked at the first lock reading: success after ten ticks, no SOS. */
  lemma FirstAttemptSucceeds(locked: nat -> bool, rep: Report)
    requires !locked(1)
    requires Describes(Some(3), locked, None, rep)
    ensures rep == Report(Opened(1), 10, 0)
  {
  }

  /** Two attempts with the door locked throughout: twenty ticks, then exactly one SOS. */
  lemma LockedThroughoutSendsSos(locked: nat -> bool, rep: Report)
    requires forall k: nat :: locked(k)
    requires Describes(Some(2), locked, None, rep)
    ensures rep == Report(Exhausted, 20, 1)
  {
  }

  /** A non-positive number of attempts makes no stop check and goes straight to the SOS sequence. */
  lemma NoAttemptsSendsSos(n: int, locked: nat -> bool, stopAt: Option<nat>, rep: Report)
    requires n <= 0
    requires Describes(Some(n), locked, stopAt, rep)
    ensures rep == Report(Exhausted, 0, 1)
  {
  }

  /**
   A stop flag raised during the last attempt's two-second pause is never checked: the loop leaves
   without another check and still spawns the SOS sequence.
   */
  lemma StopDuringLastPauseStillSendsSos(n: nat, locked: nat -> bool, rep: Report)
    requires n >= 1 && LockedThrough(locked, n)
    requires Describes(Some(n), locked, Some(ChecksPerAttempt * n), rep)
    ensures rep == Report(Exhausted, CountdownTicks * n, 1)
  {
  }

}

=== FILE: countdown.dfy ===
/**
 The pre-alert countdown (`NOCGui._update_countdown`, gui.py). Each invocation either announces
 the remaining seconds and schedules the next invocation one second later, fires the alert when
 the count has reached zero, or quietly stops when detection has been switched off meanwhile.
 */
module Countdown {

  /** Seconds announced before the alert when detection starts (`_update_countdown(5)`). */
  const PreAlertSeconds: nat := 5

  /** What one invocation does. */
  datatype Action =
    | Show(remaining: nat)   // announce `remaining` seconds, schedule the call for `remaining - 1`
    | Fire                   // record the count and call `initiate_alert_sound`
    | Quit                   // detection is no longer active: clear the message, schedule nothing

  function Tick(remaining: nat, detectionActive: bool): (a: Action)
    ensures a == Quit <==> !detectionActive
    ensures a == Fire <==> detectionActive && remaining == 0
    ensures a.Show? ==> a.remaining == remaining && 0 < remaining
  {
    if !detectionActive then Quit
    else if remaining > 0 then Show(remaining)
    else Fire
  }

  /** How a run of invocations ended. `Waiting` means a further invocation is still scheduled. */
  datatype End = Alerted | Abandoned | Waiting(remaining: nat)

  /** The seconds announced, in order, and how the run ended. */
  datatype Run = Run(shown: seq<nat>, end: End)

  /**
   The invocations made from `_update_countdown(n)` on, where `active[k]` is whether detection is
   still active at the k-th invocation. The run alerts exactly when detection stays active through
   n + 1 invocations, having announced n, n - 1, ..., 1; it is abandoned, without alerting, as soon
   as one invocation finds detection inactive.
   */
  function Count(n: nat, active: seq<bool>): (r: Run)
    ensures |r.shown| <= n
    ensures forall i :: 0 <= i < |r.shown| ==> r.shown[i] == n - i
    ensures |r.shown| <= |active|
    ensures forall i :: 0 <= i < |r.shown| ==> active[i]
    ensures r.end == Alerted <==> |active| > n && forall i :: 0 <= i <= n ==> active[i]
    ensures r.end == Alerted ==> |r.shown| == n
    ensures r.end == Abandoned <==> exists k :: 0 <= k <= n && k < |active| && !active[k]
    ensures r.end == Abandoned ==> |r.shown| < |active| && !active[|r.shown|]
    ensures r.end.Waiting? ==> |active| <= n && |r.shown| == |active| && r.end.remaining == n - |active|
    decreases n
  {
    if |active| == 0 then Run([], Waiting(n))
    else
      match Tick(n, active[0])
      case Quit => Run([], Abandoned)
      case Fire => Run([], Alerted)
      case Show(k) =>
        var rest := Count(n - 1, active[1..]);
        Run([k] + rest.shown, rest.end)
  }

  /** The announcements n, n - 1, ..., 1 of a complete countdown. */
  function Descending(n: nat): (s: seq<nat>)
    ensures |s| == n
    ensures forall i :: 0 <= i < n ==> s[i] == n - i
    decreases n
  {
    if n == 0 then [] else [n] + Descending(n - 1)
  }

  /** With detection active throughout, the countdown announces n, ..., 1 and then alerts once. */
  lemma FullCountdownAlerts(n: nat, active: seq<bool>)
    requires |active| > n
    requires forall i :: 0 <= i <= n ==> active[i]
    ensures Count(n, active) == Run(Descending(n), Alerted)
  {
    var r := Count(n, active);
    assert r.shown == Descending(n);
  }

  /** If detection is found inactive at invocation k, the countdown announced exactly the first k seconds and never alerts. */
  lemma InactiveCountdownAbandons(n: nat, active: seq<bool>, k: nat)
    requires k <= n && k < |active| && !active[k]
    requires forall i :: 0 <= i < k ==> active[i]
    ensures Count(n, active) == Run(Descending(n)[..k], Abandoned)
  {
    var r := Count(n, active);
    assert r.end == Abandoned;
    assert r.shown == Descending(n)[..k];
  }

}

=== FILE: gui.dfy ===
/**
 The interlock and escalation logic of the simulator's main window (`NOCGui`, gui.py), with the
 widgets, sounds, threads and timers taken out.

 What is left is one record (`Host`): the vehicle/door/detection flags, the enablement of the
 controls that act as interlocks, an "alive" flag for the auto-open and alert-loop tasks, the four
 stop flags those tasks poll, the pending pre-alert countdown call, and a count of every other
 delayed `root.after` continuation that is scheduled but has not run yet. Each callback is a pure
 function on that record; `Step` applies one environment event (a press on an enabled control, a
 due continuation, a detection count, a task finishing).

 Two callbacks are given in two versions, selected by `Variant`: as the source writes them, and
 corrected so that they re-check, when they finally run, the condition they were scheduled under.
 */
module Gui {
  import opened Wrappers
  import SM = StateManager
  import Countdown
  import AutoOpen

  /** Which controls accept presses. A press on a disabled control does nothing. */
  datatype Controls = Controls(move: bool, stop: bool, open: bool, close: bool, lockSwitch: bool, turnOffAlarm: bool)

  /** The stop flags of the alert loop, the safety-instruction loop, the auto-open task and the authority notification. */
  datatype StopFlags = StopFlags(alert: bool, safetyInstruction: bool, autoOpen: bool, authority: bool)

  /** Delayed continuations scheduled but not yet run. */
  datatype Pending = Pending(
    stopSettle: nat,       // vehicle_stopped_completely_callback, 2 s after stop_vehicle
    doorOpenSettle: nat,   // door_opened_completely, 2 s after open_door
    doorCloseSettle: nat,  // door_closed_completely, 2 s after close_door
    detectionStart: nat,   // start_detection, 1 s after door_closed_completely
    autoOpenSuccess: nat,  // _simulate_door_opened_successfully, queued by the auto-open task
    engineOff: nat)        // engine_stopped, queued by the engine shutdown

  datatype Host = Host(
    manager: SM.Manager,
    vehicleStoppedCompletely: bool,
    doorFullyOpen: bool,
    doorFullyClosed: bool,
    detectionActive: bool,
    alarmWasTurnedOff: bool,
    doorLocked: bool,          // the vertical lock switch
    lastDetectedCount: nat,
    controls: Controls,
    autoOpenAlive: bool,
    alertLoopAlive: bool,
    stops: StopFlags,
    countdown: Option<nat>,    // the argument of the scheduled `_update_countdown` call, if any
    pending: Pending)

  datatype Variant = AsWritten | Corrected

  /** The two door flags are complementary. */
  predicate DoorPair(h: Host)
  {
    h.doorFullyOpen == !h.doorFullyClosed
  }

  const NoControls := Controls(false, false, false, false, false, false)

  /** The window as constructed: door closed, vehicle not stopped, every control disabled, no task alive. */
  function Init(): (h: Host)
    ensures h.doorFullyClosed && !h.doorFullyOpen && !h.vehicleStoppedCompletely
    ensures !h.detectionActive && !h.alarmWasTurnedOff && !h.doorLocked && h.lastDetectedCount == 0
    ensures h.controls == NoControls && !h.autoOpenAlive && !h.alertLoopAlive && h.countdown.None?
    ensures h.manager == SM.Fresh()
    ensures h.stops == StopFlags(false, false, false, false) && h.pending == Pending(0, 0, 0, 0, 0, 0)
  {
    Host(SM.Fresh(), false, false, true, false, false, false, 0, NoControls, false, false,
         StopFlags(false, false, false, false), None, Pending(0, 0, 0, 0, 0, 0))
  }

  /** The system came up (`engine_prepared` with success): only Move is enabled. */
  function EnginePrepared(h: Host): (r: Host)
    ensures r.controls == NoControls.(move := true)
    ensures r.(controls := h.controls) == h
  {
    h.(controls := NoControls.(move := true))
  }

  /**
   The vehicle starts moving. Door flags are reset to fully closed, detection is switched off, and
   this is the only place the acknowledgement is cleared.
   */
  function StartMoving(h: Host): (r: Host)
    ensures r.manager == SM.StartVehicle(h.manager)
    ensures !r.vehicleStoppedCompletely && !r.detectionActive && !r.alarmWasTurnedOff
    ensures r.doorFullyClosed && !r.doorFullyOpen
    ensures !r.controls.move && r.controls.stop && !r.controls.open && !r.controls.close && !r.controls.lockSwitch
    ensures r.controls.turnOffAlarm == h.controls.turnOffAlarm
    ensures r.(manager := h.manager, controls := h.controls, vehicleStoppedCompletely := h.vehicleStoppedCompletely,
               doorFullyOpen := h.doorFullyOpen, doorFullyClosed := h.doorFullyClosed,
               detectionActive := h.detectionActive, alarmWasTurnedOff := h.alarmWasTurnedOff) == h
  {
    h.(manager := SM.StartVehicle(h.manager),
       controls := h.controls.(move := false, stop := true, open := false, close := false, lockSwitch := false),
       vehicleStoppedCompletely := false, doorFullyOpen := false, doorFullyClosed := true,
       detectionActive := false, alarmWasTurnedOff := false)
  }

  /** The vehicle begins to stop; it counts as fully stopped only when the settle continuation runs. */
  function StopVehicle(h: Host): (r: Host)
    ensures r.manager == SM.StopVehicle(h.manager)
    ensures !r.detectionActive && r.vehicleStoppedCompletely == h.vehicleStoppedCompletely
    ensures r.controls == h.controls.(stop := false, move := true)
    ensures r.pending == h.pending.(stopSettle := h.pending.stopSettle + 1)
    ensures r.(manager := h.manager, controls := h.controls, detectionActive := h.detectionActive, pending := h.pending) == h
  {
    h.(manager := SM.StopVehicle(h.manager),
       controls := h.controls.(stop := false, move := true),
       detectionActive := false,
       pending := h.pending.(stopSettle := h.pending.stopSettle + 1))
  }

  /** The settle continuation as written: it marks the vehicle fully stopped even if it has started moving again. */
  function VehicleStoppedCompletelyAsWritten(h: Host): (r: Host)
    ensures r.vehicleStoppedCompletely && r.manager == h.manager
    ensures r.controls == h.controls.(stop := false, open := true, lockSwitch := false)
    ensures r.(vehicleStoppedCompletely := h.vehicleStoppedCompletely, controls := h.controls) == h
  {
    h.(vehicleStoppedCompletely := true,
       controls := h.controls.(stop := false, open := true, lockSwitch := false))
  }

  /**
   The settle continuation, corrected: it is ignored when the vehicle is moving again, and when a
   later Stop is still settling, so that only the continuation of the last Stop takes effect. The
   caller has already taken this continuation off the pending count.
   */
  function VehicleStoppedCompletely(h: Host): (r: Host)
    ensures !h.vehicleStoppedCompletely && r.vehicleStoppedCompletely ==>
      !r.manager.vehicleMoving && r.pending.stopSettle == 0
    ensures !h.manager.vehicleMoving && h.pending.stopSettle == 0 ==> r == VehicleStoppedCompletelyAsWritten(h)
    ensures h.manager.vehicleMoving || h.pending.stopSettle > 0 ==> r == h
  {
    if h.manager.vehicleMoving || h.pending.stopSettle > 0 then h else VehicleStoppedCompletelyAsWritten(h)
  }

  /**
   The Open control. Unless the vehicle is fully stopped nothing changes. Otherwise a live
   auto-open task is told to stop before the door is opened.
   */
  function OpenDoor(h: Host): (r: Host)
    ensures !h.vehicleStoppedCompletely ==> r == h
    ensures h.vehicleStoppedCompletely ==>
      && r.manager == SM.OpenDoor(h.manager)
      && r.stops == h.stops.(autoOpen := h.stops.autoOpen || h.autoOpenAlive)
      && r.controls == h.controls.(open := false, close := true, move := false, lockSwitch := false)
      && r.pending == h.pending.(doorOpenSettle := h.pending.doorOpenSettle + 1)
      && r.vehicleStoppedCompletely == h.vehicleStoppedCompletely && r.detectionActive == h.detectionActive
    ensures h.vehicleStoppedCompletely ==>
      r.(manager := h.manager, stops := h.stops, controls := h.controls, pending := h.pending) == h
  {
    if !h.vehicleStoppedCompletely then h
    else
      var h1 := if h.autoOpenAlive then h.(stops := h.stops.(autoOpen := true)) else h;
      h1.(manager := SM.OpenDoor(h1.manager),
          controls := h1.controls.(open := false, close := true, move := false, lockSwitch := false),
          pending := h1.pending.(doorOpenSettle := h1.pending.doorOpenSettle + 1))
  }

  /** The door has finished opening; the alarm can be acknowledged if detection is on. */
  function DoorOpenedCompletely(h: Host): (r: Host)
    ensures r.doorFullyOpen && !r.doorFullyClosed
    ensures r.controls == h.controls.(close := true, turnOffAlarm := h.controls.turnOffAlarm || h.detectionActive)
    ensures r.(doorFullyOpen := h.doorFullyOpen, doorFullyClosed := h.doorFullyClosed, controls := h.controls) == h
  {
    h.(doorFullyOpen := true, doorFullyClosed := false,
       controls := h.controls.(close := true,
                               turnOffAlarm := if h.detectionActive then true else h.controls.turnOffAlarm))
  }

  /** The Close control: the door starts closing and acknowledgement is no longer offered. */
  function CloseDoor(h: Host): (r: Host)
    ensures r.manager == SM.CloseDoor(h.manager)
    ensures r.controls == h.controls.(open := false, close := false, turnOffAlarm := false)
    ensures r.pending == h.pending.(doorCloseSettle := h.pending.doorCloseSettle + 1)
    ensures r.doorFullyOpen == h.doorFullyOpen && r.doorFullyClosed == h.doorFullyClosed
    ensures r.(manager := h.manager, controls := h.controls, pending := h.pending) == h
  {
    h.(manager := SM.CloseDoor(h.manager),
       controls := h.controls.(open := false, close := false, turnOffAlarm := false),
       pending := h.pending.(doorCloseSettle := h.pending.doorCloseSettle + 1))
  }

  /**
   The door has finished closing. Detection is scheduled exactly when the alarm has not been
   acknowledged and detection is not already active.
   */
  function DoorClosedCompletely(h: Host): (r: Host)
    ensures r.doorFullyClosed && !r.doorFullyOpen
    ensures r.controls == h.controls.(open := true, lockSwitch := true, move := true)
    ensures r.pending.detectionStart == h.pending.detectionStart + (if !h.alarmWasTurnedOff && !h.detectionActive then 1 else 0)
    ensures r.pending.(detectionStart := h.pending.detectionStart) == h.pending
    ensures r.detectionActive == h.detectionActive && r.alarmWasTurnedOff == h.alarmWasTurnedOff
    ensures r.(doorFullyClosed := h.doorFullyClosed, doorFullyOpen := h.doorFullyOpen, controls := h.controls,
               pending := h.pending) == h
  {
    var h1 := h.(doorFullyClosed := true, doorFullyOpen := false,
                 controls := h.controls.(open := true, lockSwitch := true, move := true));
    if !h.alarmWasTurnedOff && !h.detectionActive then
      h1.(pending := h1.pending.(detectionStart := h1.pending.detectionStart + 1))
    else h1
  }

  /** Detection as written: armed unconditionally, starting the pre-alert countdown at five seconds. */
  function StartDetectionAsWritten(h: Host): (r: Host)
    ensures r.detectionActive
    ensures r.controls == h.controls.(open := true, turnOffAlarm := false)
    ensures r.countdown == Some(Countdown.PreAlertSeconds - 1)
    ensures r.manager == h.manager && r.vehicleStoppedCompletely == h.vehicleStoppedCompletely
    ensures r.(detectionActive := h.detectionActive, controls := h.controls, countdown := h.countdown) == h
  {
    var h1 := h.(detectionActive := true, controls := h.controls.(open := true, turnOffAlarm := false));
    UpdateCountdown(h1, Countdown.PreAlertSeconds)
  }

  /**
   The condition under which `DoorClosedCompletely` schedules detection, plus the vehicle still
   being fully stopped and the door not opened again.
   */
  predicate MayArm(h: Host)
  {
    h.vehicleStoppedCompletely && !h.manager.doorOpen && !h.alarmWasTurnedOff && !h.detectionActive
  }

  /**
   Detection, corrected: it re-checks when it runs that the vehicle is still stopped, the door is
   still closed, and nothing acknowledged or armed it meanwhile.
   */
  function StartDetection(h: Host): (r: Host)
    ensures r.detectionActive ==> h.detectionActive || h.vehicleStoppedCompletely
    ensures !h.detectionActive && r.detectionActive ==> !h.alarmWasTurnedOff && !h.manager.doorOpen
    ensures MayArm(h) ==> r == StartDetectionAsWritten(h)
    ensures !MayArm(h) ==> r == h
  {
    if MayArm(h) then StartDetectionAsWritten(h) else h
  }

  /** One invocation of the pre-alert countdown on the host (see `Countdown.Tick`). */
  function UpdateCountdown(h: Host, remaining: nat): (r: Host)
    ensures !h.detectionActive ==> r == h
    ensures h.detectionActive && remaining > 0 ==> r == h.(countdown := Some(remaining - 1))
    ensures h.detectionActive && remaining == 0 ==> r == InitiateAlertSound(h.(countdown := None))
  {
    match Countdown.Tick(remaining, h.detectionActive)
    case Quit => h
    case Show(k) => h.(countdown := Some(k - 1))
    case Fire => InitiateAlertSound(h.(countdown := None))
  }

  /**
   The alert decision at the end of the countdown. Nothing happens unless detection is active.
   The auto-open task is started only for a count of at least one and only when none is alive
   (it clears its own stop flag as it starts). The alert loop is started whenever none is alive,
   with its stop flag cleared first.
   */
  function InitiateAlertSound(h: Host): (r: Host)
    ensures !h.detectionActive ==> r == h
    ensures !h.autoOpenAlive && r.autoOpenAlive ==> h.lastDetectedCount >= 1
    ensures h.detectionActive && h.lastDetectedCount >= 1 ==> r.autoOpenAlive
    ensures r.autoOpenAlive == (h.autoOpenAlive || (h.detectionActive && h.lastDetectedCount >= 1))
    ensures r.alertLoopAlive == (h.alertLoopAlive || h.detectionActive)
    ensures !h.autoOpenAlive && r.autoOpenAlive ==> !r.stops.autoOpen
    ensures r.autoOpenAlive == h.autoOpenAlive ==> r.stops.autoOpen == h.stops.autoOpen
    ensures h.detectionActive ==> r.alertLoopAlive
    ensures !h.alertLoopAlive && r.alertLoopAlive ==> !r.stops.alert
    ensures h.alertLoopAlive ==> r.stops.alert == h.stops.alert
    ensures r.(autoOpenAlive := h.autoOpenAlive, alertLoopAlive := h.alertLoopAlive, stops := h.stops) == h
  {
    if !h.detectionActive then h
    else
      var h1 := if h.lastDetectedCount >= 1 && !h.autoOpenAlive
        then h.(autoOpenAlive := true, stops := h.stops.(autoOpen := false))
        else h;
      if !h1.alertLoopAlive then h1.(alertLoopAlive := true, stops := h1.stops.(alert := false)) else h1
  }

  /** The auto-open task has finished; on success it has queued the door-open continuation. */
  function AutoOpenFinished(h: Host, outcome: AutoOpen.Outcome): (r: Host)
    ensures !r.autoOpenAlive
    ensures r.pending.autoOpenSuccess == h.pending.autoOpenSuccess + (if outcome.Opened? then 1 else 0)
    ensures r.pending.(autoOpenSuccess := h.pending.autoOpenSuccess) == h.pending
    ensures r.(autoOpenAlive := h.autoOpenAlive, pending := h.pending) == h
  {
    var h1 := h.(autoOpenAlive := false);
    if outcome.Opened? then h1.(pending := h1.pending.(autoOpenSuccess := h1.pending.autoOpenSuccess + 1)) else h1
  }

  /** The automatic open takes effect only while detection is still active. */
  function SimulateDoorOpenedSuccessfully(h: Host): (r: Host)
    ensures !h.detectionActive ==> r == h
    ensures h.detectionActive ==>
      && r.manager == SM.OpenDoor(h.manager) && r.doorFullyOpen && !r.doorFullyClosed
      && r.controls == h.controls.(open := false, close := true, turnOffAlarm := true, lockSwitch := false)
      && r.detectionActive && r.vehicleStoppedCompletely == h.vehicleStoppedCompletely
    ensures r.(manager := h.manager, doorFullyOpen := h.doorFullyOpen, doorFullyClosed := h.doorFullyClosed,
               controls := h.controls) == h
  {
    if !h.detectionActive then h
    else
      h.(manager := SM.OpenDoor(h.manager), doorFullyOpen := true, doorFullyClosed := false,
         controls := h.controls.(open := false, close := true, turnOffAlarm := true, lockSwitch := false))
  }

  /**
   The operator acknowledges the alarm: every task is told to stop, the pending countdown call is
   cancelled, detection is switched off and the acknowledgement is recorded.
   */
  function TurnOffAlarm(h: Host): (r: Host)
    ensures r.stops == StopFlags(true, true, true, true)
    ensures r.countdown.None? && !r.detectionActive && r.alarmWasTurnedOff
    ensures r.controls == h.controls.(turnOffAlarm := false, move := false, close := true, open := false)
    ensures r.manager == h.manager && r.pending == h.pending && r.vehicleStoppedCompletely == h.vehicleStoppedCompletely
    ensures r.(stops := h.stops, countdown := h.countdown, detectionActive := h.detectionActive,
               alarmWasTurnedOff := h.alarmWasTurnedOff, controls := h.controls) == h
  {
    h.(stops := StopFlags(true, true, true, true), countdown := None,
       detectionActive := false, alarmWasTurnedOff := true,
       controls := h.controls.(turnOffAlarm := false, move := false, close := true, open := false))
  }

  /**
   The lock switch, ignored while its control is disabled. Locking disables Open; unlocking
   enables it again only when the vehicle is fully stopped and the door fully closed.
   */
  function ToggleVerticalSwitch(h: Host): (r: Host)
    ensures !h.controls.lockSwitch ==> r == h
    ensures h.controls.lockSwitch ==> r.doorLocked == !h.doorLocked
    ensures h.controls.lockSwitch && r.doorLocked ==> !r.controls.open
    ensures h.controls.lockSwitch && !r.doorLocked ==>
      r.controls.open == (h.controls.open || (h.vehicleStoppedCompletely && h.doorFullyClosed))
    ensures r.(doorLocked := h.doorLocked, controls := r.controls.(open := h.controls.open)) == h
  {
    if !h.controls.lockSwitch then h
    else
      var locked := !h.doorLocked;
      var open := if locked then false
                  else if h.vehicleStoppedCompletely && h.doorFullyClosed then true
                  else h.controls.open;
      h.(doorLocked := locked, controls := h.controls.(open := open))
  }

  /** A count from the detection feed is recorded only while detection is active. */
  function UpdateDetectionCount(h: Host, count: nat): (r: Host)
    ensures h.detectionActive ==> r.lastDetectedCount == count
    ensures !h.detectionActive ==> r == h
    ensures r.(lastDetectedCount := h.lastDetectedCount) == h
  {
    if h.detectionActive then h.(lastDetectedCount := count) else h
  }

  /** The alert loop exits once it sees its stop flag. */
  function AlertLoopFinished(h: Host): (r: Host)
    ensures h.stops.alert ==> !r.alertLoopAlive
    ensures !h.stops.alert ==> r == h
    ensures r.(alertLoopAlive := h.alertLoopAlive) == h
  {
    if h.stops.alert then h.(alertLoopAlive := false) else h
  }

  /**
   Engine shutdown: every stop flag is set, the pending countdown call is cancelled, every task is
   joined, and the final reset is queued.
   */
  function JoinThreadsAndShutdown(h: Host): (r: Host)
    ensures r.stops == StopFlags(true, true, true, true) && r.countdown.None?
    ensures !r.autoOpenAlive && !r.alertLoopAlive
    ensures r.pending == h.pending.(engineOff := h.pending.engineOff + 1)
    ensures r.detectionActive == h.detectionActive && r.manager == h.manager
    ensures r.(stops := h.stops, countdown := h.countdown, autoOpenAlive := h.autoOpenAlive,
               alertLoopAlive := h.alertLoopAlive, pending := h.pending) == h
  {
    h.(stops := StopFlags(true, true, true, true), countdown := None,
       autoOpenAlive := false, alertLoopAlive := false,
       pending := h.pending.(engineOff := h.pending.engineOff + 1))
  }

  /** The reset after shutdown: vehicle not stopped, door fully closed, detection off, every control disabled. */
  function EngineStopped(h: Host): (r: Host)
    ensures !r.vehicleStoppedCompletely && r.doorFullyClosed && !r.doorFullyOpen && !r.detectionActive
    ensures r.controls == NoControls
    ensures r.manager == h.manager && r.alarmWasTurnedOff == h.alarmWasTurnedOff
    ensures r.(vehicleStoppedCompletely := h.vehicleStoppedCompletely, doorFullyOpen := h.doorFullyOpen,
               doorFullyClosed := h.doorFullyClosed, detectionActive := h.detectionActive, controls := h.controls) == h
  {
    h.(vehicleStoppedCompletely := false, doorFullyOpen := false, doorFullyClosed := true,
       detectionActive := false, controls := NoControls)
  }

  datatype Event =
    | EngineReady
    | PressMove | PressStop | PressOpen | PressClose | PressTurnOffAlarm | PressLockSwitch
    | StopSettled | DoorOpenSettled | DoorCloseSettled | DetectionDue | CountdownDue
    | CountReported(count: nat)
    | AutoOpenDone(outcome: AutoOpen.Outcome)
    | AutoOpenSuccessDue
    | AlertLoopDone
    | ShutdownRequested
    | EngineOffDue

  /** The effect of one event. Continuations and task exits that are not pending or alive change nothing. */
  function Step(v: Variant, h: Host, e: Event): Host
  {
    match e
    case EngineReady => EnginePrepared(h)
    case PressMove => if h.controls.move then StartMoving(h) else h
    case PressStop => if h.controls.stop then StopVehicle(h) else h
    case PressOpen => if h.controls.open then OpenDoor(h) else h
    case PressClose => if h.controls.close then CloseDoor(h) else h
    case PressTurnOffAlarm => if h.controls.turnOffAlarm then TurnOffAlarm(h) else h
    case PressLockSwitch => ToggleVerticalSwitch(h)
    case StopSettled =>
      if h.pending.stopSettle == 0 then h
      else
        var h1 := h.(pending := h.pending.(stopSettle := h.pending.stopSettle - 1));
        if v == AsWritten then VehicleStoppedCompletelyAsWritten(h1) else VehicleStoppedCompletely(h1)
    case DoorOpenSettled =>
      if h.pending.doorOpenSettle == 0 then h
      else DoorOpenedCompletely(h.(pending := h.pending.(doorOpenSettle := h.pending.doorOpenSettle - 1)))
    case DoorCloseSettled =>
      if h.pending.doorCloseSettle == 0 then h
      else DoorClosedCompletely(h.(pending := h.pending.(doorCloseSettle := h.pending.doorCloseSettle - 1)))
    case DetectionDue =>
      if h.pending.detectionStart == 0 then h
      else
        var h1 := h.(pending := h.pending.(detectionStart := h.pending.detectionStart - 1));
        if v == AsWritten then StartDetectionAsWritten(h1) else StartDetection(h1)
    case CountdownDue =>
      if h.countdown.None? then h else UpdateCountdown(h.(countdown := None), h.countdown.value)
    case CountReported(count) => UpdateDetectionCount(h, count)
    case AutoOpenDone(outcome) => if h.autoOpenAlive then AutoOpenFinished(h, outcome) else h
    case AutoOpenSuccessDue =>
      if h.pending.autoOpenSuccess == 0 then h
      else SimulateDoorOpenedSuccessfully(h.(pending := h.pending.(autoOpenSuccess := h.pending.autoOpenSuccess - 1)))
    case AlertLoopDone => if h.alertLoopAlive then AlertLoopFinished(h) else h
    case ShutdownRequested => JoinThreadsAndShutdown(h)
    case EngineOffDue =>
      if h.pending.engineOff == 0 then h
      else EngineStopped(h.(pending := h.pending.(engineOff := h.pending.engineOff - 1)))
  }

  /** The state after a whole trace of events. */
  function Run(v: Variant, h: Host, trace: seq<Event>): Host
    decreases |trace|
  {
    if |trace| == 0 then h else Run(v, Step(v, h, trace[0]), trace[1..])
  }

}

=== FILE: gui_traces.dfy ===
/**
 Properties of whole event traces of the main window (module `Gui`): invariants that every event
 keeps, the acknowledgement guard, and the two places where the source's delayed continuations
 let the door open while the vehicle is moving.
 */
module GuiTraces {
  import opened Wrappers
  import AutoOpen
  import opened Gui

  // ---------------------------------------------------------------------------------------------
  // How events are delivered: presses reach enabled controls only, and each delayed continuation
  // runs once per scheduling.

  /** A press on a disabled control, and a lock-switch press while the switch is disabled, changes nothing. */
  lemma DisabledPressIgnored(v: Variant, h: Host, e: Event)
    requires || (e.PressMove? && !h.controls.move) || (e.PressStop? && !h.controls.stop)
             || (e.PressOpen? && !h.controls.open) || (e.PressClose? && !h.controls.close)
             || (e.PressTurnOffAlarm? && !h.controls.turnOffAlarm) || (e.PressLockSwitch? && !h.controls.lockSwitch)
    ensures Step(v, h, e) == h
  {
  }

  /** A settle continuation that is not pending changes nothing; a pending one is consumed exactly once. */
  lemma SettleContinuationRunsOnce(v: Variant, h: Host, e: Event)
    requires e.StopSettled? || e.DoorOpenSettled? || e.DoorCloseSettled?
    ensures e.StopSettled? && h.pending.stopSettle == 0 ==> Step(v, h, e) == h
    ensures e.StopSettled? && h.pending.stopSettle > 0 ==> Step(v, h, e).pending.stopSettle == h.pending.stopSettle - 1
    ensures e.DoorOpenSettled? && h.pending.doorOpenSettle == 0 ==> Step(v, h, e) == h
    ensures e.DoorOpenSettled? && h.pending.doorOpenSettle > 0 ==>
      Step(v, h, e).pending.doorOpenSettle == h.pending.doorOpenSettle - 1
    ensures e.DoorCloseSettled? && h.pending.doorCloseSettle == 0 ==> Step(v, h, e) == h
    ensures e.DoorCloseSettled? && h.pending.doorCloseSettle > 0 ==>
      Step(v, h, e).pending.doorCloseSettle == h.pending.doorCloseSettle - 1
  {
  }

  /** The same for the detection start, the automatic-open success and the final engine reset. */
  lemma DeferredContinuationRunsOnce(v: Variant, h: Host, e: Event)
    requires e.DetectionDue? || e.AutoOpenSuccessDue? || e.EngineOffDue?
    ensures e.DetectionDue? && h.pending.detectionStart == 0 ==> Step(v, h, e) == h
    ensures e.DetectionDue? && h.pending.detectionStart > 0 ==>
      Step(v, h, e).pending.detectionStart == h.pending.detectionStart - 1
    ensures e.AutoOpenSuccessDue? && h.pending.autoOpenSuccess == 0 ==> Step(v, h, e) == h
    ensures e.AutoOpenSuccessDue? && h.pending.autoOpenSuccess > 0 ==>
      Step(v, h, e).pending.autoOpenSuccess == h.pending.autoOpenSuccess - 1
    ensures e.EngineOffDue? && h.pending.engineOff == 0 ==> Step(v, h, e) == h
    ensures e.EngineOffDue? && h.pending.engineOff > 0 ==> Step(v, h, e).pending.engineOff == h.pending.engineOff - 1
  {
  }

  /**
   The pending countdown call runs once: without one nothing happens; found inactive it is dropped;
   otherwise it either schedules the next second or clears itself and raises the alert.
   */
  lemma CountdownCallRunsOnce(v: Variant, h: Host)
    ensures h.countdown.None? ==> Step(v, h, CountdownDue) == h
    ensures h.countdown.Some? && !h.detectionActive ==> Step(v, h, CountdownDue) == h.(countdown := None)
    ensures h.countdown.Some? && h.detectionActive && h.countdown.value > 0 ==>
      Step(v, h, CountdownDue) == h.(countdown := Some(h.countdown.value - 1))
    ensures h.countdown == Some(0) ==> Step(v, h, CountdownDue) == InitiateAlertSound(h.(countdown := None))
  {
    if h.countdown.Some? {
      assert Step(v, h, CountdownDue) == UpdateCountdown(h.(countdown := None), h.countdown.value);
    }
  }

  /**
   The two variants differ only in the settle continuation and the detection start, and agree on
   those too whenever the condition they were scheduled under still holds.
   */
  lemma VariantsAgree(h: Host, e: Event)
    requires !e.StopSettled? || (!h.manager.vehicleMoving && h.pending.stopSettle <= 1)
    requires !e.DetectionDue? || h.pending.detectionStart == 0 || MayArm(h)
    ensures Step(AsWritten, h, e) == Step(Corrected, h, e)
  {
  }

  /** `n` countdown calls coming due one after another. */
  function Dues(n: nat): (t: seq<Event>)
    ensures |t| == n && forall i :: 0 <= i < n ==> t[i] == CountdownDue
  {
    seq(n, _ => CountdownDue)
  }

  /**
   On the host, a countdown with `k` seconds still to announce and detection active throughout
   raises the alert after exactly `k + 1` due calls, once: the alert decision is taken on the host
   as it was, and no countdown call is left pending (compare `Countdown.FullCountdownAlerts`).
   */
  lemma {:induction false} CountdownReachesAlert(v: Variant, h: Host, k: nat)
    requires h.countdown == Some(k) && h.detectionActive
    ensures Run(v, h, Dues(k + 1)) == InitiateAlertSound(h.(countdown := None))
    ensures Run(v, h, Dues(k + 1)).countdown.None?
    decreases k
  {
    var t := Dues(k + 1);
    CountdownCallRunsOnce(v, h);
    if k == 0 {
      assert t[1..] == [];
    } else {
      assert t[1..] == Dues(k);
      var h1 := h.(countdown := Some(k - 1));
      CountdownReachesAlert(v, h1, k - 1);
      assert h1.(countdown := None) == h.(countdown := None);
    }
  }

  // ---------------------------------------------------------------------------------------------
  // The door flags are only ever assigned as a complementary pair.
  //
  // Here and for each invariant below, the `User`, `Settle`, `Deferred`, `Countdown` and `Task`
  // lemmas state the same step property for one group of events. They exist only to keep each
  // proof obligation small; the `StepKeeps…` lemma that dispatches on the event is the statement.

  lemma UserStepKeepsDoorPair(v: Variant, h: Host, e: Event)
    requires e.EngineReady? || e.PressMove? || e.PressStop? || e.PressOpen? || e.PressClose? || e.PressTurnOffAlarm? || e.PressLockSwitch?
    requires DoorPair(h)
    ensures DoorPair(Step(v, h, e))
  {
  }

  lemma SettleStepKeepsDoorPair(v: Variant, h: Host, e: Event)
    requires e.StopSettled? || e.DoorOpenSettled? || e.DoorCloseSettled?
    requires DoorPair(h)
    ensures DoorPair(Step(v, h, e))
  {
  }

  lemma DeferredStepKeepsDoorPair(v: Variant, h: Host, e: Event)
    requires e.DetectionDue? || e.AutoOpenSuccessDue? || e.EngineOffDue?
    requires DoorPair(h)
    ensures DoorPair(Step(v, h, e))
  {
  }

  lemma CountdownStepKeepsDoorPair(v: Variant, h: Host, e: Event)
    requires e.CountdownDue?
    requires DoorPair(h)
    ensures DoorPair(Step(v, h, e))
  {
  }

  lemma TaskStepKeepsDoorPair(v: Variant, h: Host, e: Event)
    requires e.CountReported? || e.AutoOpenDone? || e.AlertLoopDone? || e.ShutdownRequested?
    requires DoorPair(h)
    ensures DoorPair(Step(v, h, e))
  {
  }

  lemma StepKeepsDoorPair(v: Variant, h: Host, e: Event)
    requires DoorPair(h)
    ensures DoorPair(Step(v, h, e))
  {
    match e {
      case EngineReady => UserStepKeepsDoorPair(v, h, e);
      case PressMove => UserStepKeepsDoorPair(v, h, e);
      case PressStop => UserStepKeepsDoorPair(v, h, e);
      case PressOpen => UserStepKeepsDoorPair(v, h, e);
      case PressClose => UserStepKeepsDoorPair(v, h, e);
      case PressTurnOffAlarm => UserStepKeepsDoorPair(v, h, e);
      case PressLockSwitch => UserStepKeepsDoorPair(v, h, e);
      case StopSettled => SettleStepKeepsDoorPair(v, h, e);
      case DoorOpenSettled => SettleStepKeepsDoorPair(v, h, e);
      case DoorCloseSettled => SettleStepKeepsDoorPair(v, h, e);
      case DetectionDue => DeferredStepKeepsDoorPair(v, h, e);
      case AutoOpenSuccessDue => DeferredStepKeepsDoorPair(v, h, e);
      case EngineOffDue => DeferredStepKeepsDoorPair(v, h, e);
      case CountdownDue => CountdownStepKeepsDoorPair(v, h, e);
      case CountReported(_) => TaskStepKeepsDoorPair(v, h, e);
      case AutoOpenDone(_) => TaskStepKeepsDoorPair(v, h, e);
      case AlertLoopDone => TaskStepKeepsDoorPair(v, h, e);
      case ShutdownRequested => TaskStepKeepsDoorPair(v, h, e);
    }
  }

  lemma {:induction false} RunKeepsDoorPair(v: Variant, h: Host, trace: seq<Event>)
    requires DoorPair(h)
    ensures DoorPair(Run(v, h, trace))
    decreases |trace|
  {
    if |trace| > 0 {
      StepKeepsDoorPair(v, h, trace[0]);
      RunKeepsDoorPair(v, Step(v, h, trace[0]), trace[1..]);
    }
  }

  /** In every reachable state the door is fully open exactly when it is not fully closed. */
  lemma DoorFlagsComplementary(v: Variant, trace: seq<Event>)
    ensures Run(v, Init(), trace).doorFullyOpen == !Run(v, Init(), trace).doorFullyClosed
  {
    RunKeepsDoorPair(v, Init(), trace);
  }

  // ---------------------------------------------------------------------------------------------
  // The auto-open task is never started without an occupant.

  /** No event starts the auto-open task unless the last recorded count is at least one. */
  lemma AutoOpenNeedsOccupant(v: Variant, h: Host, e: Event)
    ensures !h.autoOpenAlive && Step(v, h, e).autoOpenAlive ==> h.lastDetectedCount >= 1
  {
    match e {
      case CountdownDue =>
      case DetectionDue =>
      case _ =>
    }
  }

  // ---------------------------------------------------------------------------------------------
  // Acknowledgement.

  lemma UserStepKeepsAcknowledged(v: Variant, h: Host, e: Event)
    requires e.EngineReady? || e.PressMove? || e.PressStop? || e.PressOpen? || e.PressClose? || e.PressTurnOffAlarm? || e.PressLockSwitch?
    requires h.alarmWasTurnedOff && !e.PressMove?
    ensures Step(v, h, e).alarmWasTurnedOff
    ensures Step(v, h, e).pending.detectionStart <= h.pending.detectionStart
  {
  }

  lemma SettleStepKeepsAcknowledged(v: Variant, h: Host, e: Event)
    requires e.StopSettled? || e.DoorOpenSettled? || e.DoorCloseSettled?
    requires h.alarmWasTurnedOff && !e.PressMove?
    ensures Step(v, h, e).alarmWasTurnedOff
    ensures Step(v, h, e).pending.detectionStart <= h.pending.detectionStart
  {
    if e.DoorCloseSettled? && h.pending.doorCloseSettle > 0 {
      var h1 := h.(pending := h.pending.(doorCloseSettle := h.pending.doorCloseSettle - 1));
      assert Step(v, h, e) == DoorClosedCompletely(h1);
    }
  }

  lemma DeferredStepKeepsAcknowledged(v: Variant, h: Host, e: Event)
    requires e.DetectionDue? || e.AutoOpenSuccessDue? || e.EngineOffDue?
    requires h.alarmWasTurnedOff && !e.PressMove?
    ensures Step(v, h, e).alarmWasTurnedOff
    ensures Step(v, h, e).pending.detectionStart <= h.pending.detectionStart
  {
  }

  lemma CountdownStepKeepsAcknowledged(v: Variant, h: Host, e: Event)
    requires e.CountdownDue?
    requires h.alarmWasTurnedOff && !e.PressMove?
    ensures Step(v, h, e).alarmWasTurnedOff
    ensures Step(v, h, e).pending.detectionStart <= h.pending.detectionStart
  {
  }

  lemma TaskStepKeepsAcknowledged(v: Variant, h: Host, e: Event)
    requires e.CountReported? || e.AutoOpenDone? || e.AlertLoopDone? || e.ShutdownRequested?
    requires h.alarmWasTurnedOff && !e.PressMove?
    ensures Step(v, h, e).alarmWasTurnedOff
    ensures Step(v, h, e).pending.detectionStart <= h.pending.detectionStart
  {
  }

  lemma StepKeepsAcknowledged(v: Variant, h: Host, e: Event)
    requires h.alarmWasTurnedOff && !e.PressMove?
    ensures Step(v, h, e).alarmWasTurnedOff
    ensures Step(v, h, e).pending.detectionStart <= h.pending.detectionStart
  {
    match e {
      case EngineReady => UserStepKeepsAcknowledged(v, h, e);
      case PressMove => UserStepKeepsAcknowledged(v, h, e);
      case PressStop => UserStepKeepsAcknowledged(v, h, e);
      case PressOpen => UserStepKeepsAcknowledged(v, h, e);
      case PressClose => UserStepKeepsAcknowledged(v, h, e);
      case PressTurnOffAlarm => UserStepKeepsAcknowledged(v, h, e);
      case PressLockSwitch => UserStepKeepsAcknowledged(v, h, e);
      case StopSettled => SettleStepKeepsAcknowledged(v, h, e);
      case DoorOpenSettled => SettleStepKeepsAcknowledged(v, h, e);
      case DoorCloseSettled => SettleStepKeepsAcknowledged(v, h, e);
      case DetectionDue => DeferredStepKeepsAcknowledged(v, h, e);
      case AutoOpenSuccessDue => DeferredStepKeepsAcknowledged(v, h, e);
      case EngineOffDue => DeferredStepKeepsAcknowledged(v, h, e);
      case CountdownDue => CountdownStepKeepsAcknowledged(v, h, e);
      case CountReported(_) => TaskStepKeepsAcknowledged(v, h, e);
      case AutoOpenDone(_) => TaskStepKeepsAcknowledged(v, h, e);
      case AlertLoopDone => TaskStepKeepsAcknowledged(v, h, e);
      case ShutdownRequested => TaskStepKeepsAcknowledged(v, h, e);
    }
  }

  lemma UserStepKeepsSilent(h: Host, e: Event)
    requires e.EngineReady? || e.PressMove? || e.PressStop? || e.PressOpen? || e.PressClose? || e.PressTurnOffAlarm? || e.PressLockSwitch?
    requires h.alarmWasTurnedOff && !h.detectionActive && !e.PressMove?
    ensures Step(Corrected, h, e).alarmWasTurnedOff && !Step(Corrected, h, e).detectionActive
    ensures Step(Corrected, h, e).autoOpenAlive ==> h.autoOpenAlive
    ensures Step(Corrected, h, e).alertLoopAlive ==> h.alertLoopAlive
  {
  }

  lemma SettleStepKeepsSilent(h: Host, e: Event)
    requires e.StopSettled? || e.DoorOpenSettled? || e.DoorCloseSettled?
    requires h.alarmWasTurnedOff && !h.detectionActive && !e.PressMove?
    ensures Step(Corrected, h, e).alarmWasTurnedOff && !Step(Corrected, h, e).detectionActive
    ensures Step(Corrected, h, e).autoOpenAlive ==> h.autoOpenAlive
    ensures Step(Corrected, h, e).alertLoopAlive ==> h.alertLoopAlive
  {
  }

  lemma DeferredStepKeepsSilent(h: Host, e: Event)
    requires e.DetectionDue? || e.AutoOpenSuccessDue? || e.EngineOffDue?
    requires h.alarmWasTurnedOff && !h.detectionActive && !e.PressMove?
    ensures Step(Corrected, h, e).alarmWasTurnedOff && !Step(Corrected, h, e).detectionActive
    ensures Step(Corrected, h, e).autoOpenAlive ==> h.autoOpenAlive
    ensures Step(Corrected, h, e).alertLoopAlive ==> h.alertLoopAlive
  {
  }

  lemma CountdownStepKeepsSilent(h: Host, e: Event)
    requires e.CountdownDue?
    requires h.alarmWasTurnedOff && !h.detectionActive && !e.PressMove?
    ensures Step(Corrected, h, e).alarmWasTurnedOff && !Step(Corrected, h, e).detectionActive
    ensures Step(Corrected, h, e).autoOpenAlive ==> h.autoOpenAlive
    ensures Step(Corrected, h, e).alertLoopAlive ==> h.alertLoopAlive
  {
  }

  lemma TaskStepKeepsSilent(h: Host, e: Event)
    requires e.CountReported? || e.AutoOpenDone? || e.AlertLoopDone? || e.ShutdownRequested?
    requires h.alarmWasTurnedOff && !h.detectionActive && !e.PressMove?
    ensures Step(Corrected, h, e).alarmWasTurnedOff && !Step(Corrected, h, e).detectionActive
    ensures Step(Corrected, h, e).autoOpenAlive ==> h.autoOpenAlive
    ensures Step(Corrected, h, e).alertLoopAlive ==> h.alertLoopAlive
  {
  }

  lemma StepKeepsSilent(h: Host, e: Event)
    requires h.alarmWasTurnedOff && !h.detectionActive && !e.PressMove?
    ensures Step(Corrected, h, e).alarmWasTurnedOff && !Step(Corrected, h, e).detectionActive
    ensures Step(Corrected, h, e).autoOpenAlive ==> h.autoOpenAlive
    ensures Step(Corrected, h, e).alertLoopAlive ==> h.alertLoopAlive
  {
    match e {
      case EngineReady => UserStepKeepsSilent(h, e);
      case PressMove => UserStepKeepsSilent(h, e);
      case PressStop => UserStepKeepsSilent(h, e);
      case PressOpen => UserStepKeepsSilent(h, e);
      case PressClose => UserStepKeepsSilent(h, e);
      case PressTurnOffAlarm => UserStepKeepsSilent(h, e);
      case PressLockSwitch => UserStepKeepsSilent(h, e);
      case StopSettled => SettleStepKeepsSilent(h, e);
      case DoorOpenSettled => SettleStepKeepsSilent(h, e);
      case DoorCloseSettled => SettleStepKeepsSilent(h, e);
      case DetectionDue => DeferredStepKeepsSilent(h, e);
      case AutoOpenSuccessDue => DeferredStepKeepsSilent(h, e);
      case EngineOffDue => DeferredStepKeepsSilent(h, e);
      case CountdownDue => CountdownStepKeepsSilent(h, e);
      case CountReported(_) => TaskStepKeepsSilent(h, e);
      case AutoOpenDone(_) => TaskStepKeepsSilent(h, e);
      case AlertLoopDone => TaskStepKeepsSilent(h, e);
      case ShutdownRequested => TaskStepKeepsSilent(h, e);
    }
  }

  /**
   After the alarm is acknowledged, and until the vehicle is moved again, the acknowledgement
   stays recorded and no door-close completion schedules detection.
   */
  lemma {:induction false} AcknowledgementBlocksRearm(v: Variant, h: Host, trace: seq<Event>)
    requires h.alarmWasTurnedOff
    requires forall i :: 0 <= i < |trace| ==> !trace[i].PressMove?
    ensures Run(v, h, trace).alarmWasTurnedOff
    ensures Run(v, h, trace).pending.detectionStart <= h.pending.detectionStart
    decreases |trace|
  {
    if |trace| > 0 {
      StepKeepsAcknowledged(v, h, trace[0]);
      AcknowledgementBlocksRearm(v, Step(v, h, trace[0]), trace[1..]);
    }
  }

  /**
   With detection starting re-checked when it runs, an acknowledged alarm stays silent until the
   vehicle moves again: detection stays off and no auto-open or alert task is started.
   */
  lemma {:induction false} AcknowledgementKeepsDetectionOff(h: Host, trace: seq<Event>)
    requires h.alarmWasTurnedOff && !h.detectionActive
    requires forall i :: 0 <= i < |trace| ==> !trace[i].PressMove?
    ensures !Run(Corrected, h, trace).detectionActive
    ensures Run(Corrected, h, trace).autoOpenAlive ==> h.autoOpenAlive
    ensures Run(Corrected, h, trace).alertLoopAlive ==> h.alertLoopAlive
    decreases |trace|
  {
    if |trace| > 0 {
      StepKeepsSilent(h, trace[0]);
      AcknowledgementKeepsDetectionOff(Step(Corrected, h, trace[0]), trace[1..]);
    }
  }

  /** Acknowledging sets every stop flag, cancels the countdown and leaves detection off and acknowledged. */
  lemma AcknowledgementStopsEverything(v: Variant, h: Host)
    requires h.controls.turnOffAlarm
    ensures var r := Step(v, h, PressTurnOffAlarm);
      && r.stops.alert && r.stops.safetyInstruction && r.stops.autoOpen && r.stops.authority
      && r.countdown.None? && !r.detectionActive && r.alarmWasTurnedOff
  {
  }

  // ---------------------------------------------------------------------------------------------
  // The door never opens while the vehicle moves (corrected continuations).

  /**
   The interlock: "fully stopped" implies not moving, no Stop still settling and the Stop control
   disabled, and detection is only ever active while the vehicle is fully stopped (so neither the
   Open control nor the auto-open continuation can act while it moves).
   */
  ghost predicate Interlocked(h: Host)
  {
    && DoorPair(h)
    && (h.vehicleStoppedCompletely ==> !h.manager.vehicleMoving)
    && (h.detectionActive ==> h.vehicleStoppedCompletely)
    && (h.controls.stop ==> !h.vehicleStoppedCompletely)
    && (h.vehicleStoppedCompletely ==> h.pending.stopSettle == 0)
  }

  lemma UserStepKeepsInterlocked(h: Host, e: Event)
    requires e.EngineReady? || e.PressMove? || e.PressStop? || e.PressOpen? || e.PressClose? || e.PressTurnOffAlarm? || e.PressLockSwitch?
    requires Interlocked(h)
    ensures Interlocked(Step(Corrected, h, e))
  {
  }

  lemma SettleStepKeepsInterlocked(h: Host, e: Event)
    requires e.StopSettled? || e.DoorOpenSettled? || e.DoorCloseSettled?
    requires Interlocked(h)
    ensures Interlocked(Step(Corrected, h, e))
  {
  }

  lemma DeferredStepKeepsInterlocked(h: Host, e: Event)
    requires e.DetectionDue? || e.AutoOpenSuccessDue? || e.EngineOffDue?
    requires Interlocked(h)
    ensures Interlocked(Step(Corrected, h, e))
  {
  }

  lemma CountdownStepKeepsInterlocked(h: Host, e: Event)
    requires e.CountdownDue?
    requires Interlocked(h)
    ensures Interlocked(Step(Corrected, h, e))
  {
  }

  lemma TaskStepKeepsInterlocked(h: Host, e: Event)
    requires e.CountReported? || e.AutoOpenDone? || e.AlertLoopDone? || e.ShutdownRequested?
    requires Interlocked(h)
    ensures Interlocked(Step(Corrected, h, e))
  {
  }

  lemma StepKeepsInterlocked(h: Host, e: Event)
    requires Interlocked(h)
    ensures Interlocked(Step(Corrected, h, e))
  {
    match e {
      case EngineReady => UserStepKeepsInterlocked(h, e);
      case PressMove => UserStepKeepsInterlocked(h, e);
      case PressStop => UserStepKeepsInterlocked(h, e);
      case PressOpen => UserStepKeepsInterlocked(h, e);
      case PressClose => UserStepKeepsInterlocked(h, e);
      case PressTurnOffAlarm => UserStepKeepsInterlocked(h, e);
      case PressLockSwitch => UserStepKeepsInterlocked(h, e);
      case StopSettled => SettleStepKeepsInterlocked(h, e);
      case DoorOpenSettled => SettleStepKeepsInterlocked(h, e);
      case DoorCloseSettled => SettleStepKeepsInterlocked(h, e);
      case DetectionDue => DeferredStepKeepsInterlocked(h, e);
      case AutoOpenSuccessDue => DeferredStepKeepsInterlocked(h, e);
      case EngineOffDue => DeferredStepKeepsInterlocked(h, e);
      case CountdownDue => CountdownStepKeepsInterlocked(h, e);
      case CountReported(_) => TaskStepKeepsInterlocked(h, e);
      case AutoOpenDone(_) => TaskStepKeepsInterlocked(h, e);
      case AlertLoopDone => TaskStepKeepsInterlocked(h, e);
      case ShutdownRequested => TaskStepKeepsInterlocked(h, e);
    }
  }

  lemma {:induction false} RunKeepsInterlocked(h: Host, trace: seq<Event>)
    requires Interlocked(h)
    ensures Interlocked(Run(Corrected, h, trace))
    decreases |trace|
  {
    if |trace| > 0 {
      StepKeepsInterlocked(h, trace[0]);
      RunKeepsInterlocked(Step(Corrected, h, trace[0]), trace[1..]);
    }
  }

  /** In every reachable state, detection is active only while the vehicle is fully stopped and not moving. */
  lemma DetectionOnlyWhileStationary(trace: seq<Event>)
    ensures var h := Run(Corrected, Init(), trace);
      h.detectionActive ==> h.vehicleStoppedCompletely && !h.manager.vehicleMoving
  {
    RunKeepsInterlocked(Init(), trace);
  }

  /** From any reachable state, an event that opens the door happens with the vehicle fully stopped and not moving, and leaves it not moving. */
  lemma DoorOnlyOpensWhenStationary(trace: seq<Event>, e: Event)
    ensures var h := Run(Corrected, Init(), trace);
      var r := Step(Corrected, h, e);
      !h.manager.doorOpen && r.manager.doorOpen ==>
        && h.vehicleStoppedCompletely && !h.manager.vehicleMoving && !r.manager.vehicleMoving
        && h.pending.stopSettle == 0 && !h.controls.stop
  {
    RunKeepsInterlocked(Init(), trace);
  }

  // ---------------------------------------------------------------------------------------------
  // The same properties fail for the continuations as written.

  /** Stop, then Move again before the two-second settle delay has passed. */
  const StaleStopTrace: seq<Event> := [EngineReady, PressMove, PressStop, PressMove, StopSettled]

  /** The stale settle continuation marks the moving vehicle as stopped, and Open is then accepted while it moves. */
  lemma StaleStopSettleOpensDoorWhileMoving()
    ensures var h := Run(AsWritten, Init(), StaleStopTrace);
      && h.manager.vehicleMoving && h.vehicleStoppedCompletely && !h.manager.doorOpen
      && Step(AsWritten, h, PressOpen).manager.doorOpen
  {
    var h0 := Init();
    var h1 := Step(AsWritten, h0, EngineReady);
    var h2 := Step(AsWritten, h1, PressMove);
    var h3 := Step(AsWritten, h2, PressStop);
    var h4 := Step(AsWritten, h3, PressMove);
    var h5 := Step(AsWritten, h4, StopSettled);
    assert h5.manager.vehicleMoving && h5.vehicleStoppedCompletely && h5.controls.open;
    assert Run(AsWritten, Init(), StaleStopTrace) == h5 by {
      assert StaleStopTrace[1..][1..][1..][1..][1..] == [];
    }
  }

  /** Stop, Move and Stop again; then the first Stop's settle continuation fires. */
  const StopMoveStopTrace: seq<Event> := [EngineReady, PressMove, PressStop, PressMove, PressStop, StopSettled]

  /** The corrected continuation ignores the first Stop's settle call and honours the last one. */
  lemma StopMoveStopWaitsForLastSettle()
    ensures var h := Run(Corrected, Init(), StopMoveStopTrace);
      && !h.manager.vehicleMoving && !h.vehicleStoppedCompletely && !h.controls.open && h.pending.stopSettle == 1
      && var r := Step(Corrected, h, StopSettled);
         r.vehicleStoppedCompletely && r.controls.open && r.pending.stopSettle == 0
  {
    var h0 := Init();
    var h1 := Step(Corrected, h0, EngineReady);
    var h2 := Step(Corrected, h1, PressMove);
    var h3 := Step(Corrected, h2, PressStop);
    var h4 := Step(Corrected, h3, PressMove);
    var h5 := Step(Corrected, h4, PressStop);
    var h6 := Step(Corrected, h5, StopSettled);
    assert !h6.vehicleStoppedCompletely && !h6.controls.open && h6.pending.stopSettle == 1;
    assert Run(Corrected, Init(), StopMoveStopTrace) == h6 by {
      assert StopMoveStopTrace[1..][1..][1..][1..][1..][1..] == [];
    }
  }

  lemma {:induction false} RunAppend(v: Variant, h: Host, a: seq<Event>, b: seq<Event>)
    ensures Run(v, h, a + b) == Run(v, Run(v, h, a), b)
    decreases |a|
  {
    if |a| > 0 {
      assert (a + b)[0] == a[0] && (a + b)[1..] == a[1..] + b;
      RunAppend(v, Step(v, h, a[0]), a[1..], b);
    } else {
      assert a + b == b;
    }
  }

  /** Park: start the system, drive, stop, and let the vehicle settle. */
  const Park: seq<Event> := [EngineReady, PressMove, PressStop, StopSettled]
  /** Open and close the door, and let it finish closing. */
  const ShutDoor: seq<Event> := [PressOpen, PressClose, DoorCloseSettled]
  /** The detection start runs and an occupant is counted. */
  const Arm: seq<Event> := [DetectionDue, CountReported(1)]
  /** The countdown runs down towards the alert. */
  const RunDown: seq<Event> := [CountdownDue, CountdownDue, CountdownDue]
  /** The countdown ends, the auto-open task starts and reports success. */
  const AlertAndRelease: seq<Event> := [CountdownDue, CountdownDue, AutoOpenDone(AutoOpen.Opened(1))]

  /**
   Close the door, then Move before the one-second detection delay has passed. Detection still
   starts, counts an occupant, and the auto-open task succeeds.
   */
  const StaleDetectionTrace: seq<Event> := Park + ShutDoor + [PressMove] + Arm + RunDown + AlertAndRelease

  /** A parked vehicle with its door closed, an occupant detected, and the automatic open succeeding. */
  const AutoReleaseTrace: seq<Event> := Park + ShutDoor + Arm + RunDown + AlertAndRelease

  lemma ParkFacts(v: Variant)
    ensures var h := Run(v, Init(), Park);
      && h.vehicleStoppedCompletely && h.controls.open && !h.manager.vehicleMoving && !h.manager.doorOpen
      && !h.alarmWasTurnedOff && !h.detectionActive && !h.autoOpenAlive
      && h.pending.doorCloseSettle == 0 && h.pending.detectionStart == 0
  {
    var t := Park;
    assert t[1..][1..][1..][1..] == [];
  }

  lemma ShutDoorFacts(v: Variant, h: Host)
    requires h.vehicleStoppedCompletely && h.controls.open && !h.manager.vehicleMoving
    requires !h.alarmWasTurnedOff && !h.detectionActive && !h.autoOpenAlive
    requires h.pending.doorCloseSettle == 0 && h.pending.detectionStart == 0
    ensures var r := Run(v, h, ShutDoor);
      && r.vehicleStoppedCompletely && !r.manager.vehicleMoving && !r.manager.doorOpen
      && !r.alarmWasTurnedOff && !r.detectionActive && !r.autoOpenAlive
      && r.controls.move && r.pending.detectionStart == 1
  {
    var t := ShutDoor;
    assert t[1..][1..][1..] == [];
  }

  lemma LeaveFacts(h: Host)
    requires h.controls.move && !h.manager.doorOpen && !h.autoOpenAlive && h.pending.detectionStart == 1
    ensures var r := Run(AsWritten, h, [PressMove]);
      && r.manager.vehicleMoving && !r.manager.doorOpen && !r.autoOpenAlive && r.pending.detectionStart == 1
  {
  }

  /** The detection start arms, as written unconditionally and corrected when the vehicle is still parked. */
  lemma ArmFacts(v: Variant, h: Host)
    requires !h.manager.doorOpen && !h.autoOpenAlive && h.pending.detectionStart == 1
    requires v == AsWritten || MayArm(h)
    ensures var r := Run(v, h, Arm);
      && r.manager == h.manager && r.controls.move == h.controls.move && !r.autoOpenAlive
      && r.detectionActive && r.lastDetectedCount == 1 && r.countdown == Some(4)
  {
    var t := Arm;
    assert t[1..][1..] == [];
  }

  lemma RunDownFacts(v: Variant, h: Host)
    requires !h.manager.doorOpen && !h.autoOpenAlive
    requires h.detectionActive && h.lastDetectedCount == 1 && h.countdown == Some(4)
    ensures var r := Run(v, h, RunDown);
      && r.manager == h.manager && r.controls.move == h.controls.move && !r.autoOpenAlive
      && r.detectionActive && r.lastDetectedCount == 1 && r.countdown == Some(1)
  {
    var t := RunDown;
    assert t[1..][1..][1..] == [];
  }

  lemma AlertAndReleaseFacts(v: Variant, h: Host)
    requires !h.manager.doorOpen && !h.autoOpenAlive
    requires h.detectionActive && h.lastDetectedCount == 1 && h.countdown == Some(1)
    ensures var r := Run(v, h, AlertAndRelease);
      && r.manager == h.manager && r.controls.move == h.controls.move && r.detectionActive
      && r.pending.autoOpenSuccess > 0
  {
    var t := AlertAndRelease;
    assert t[1..][1..][1..] == [];
  }

  /** A pending automatic-open success opens the door whenever detection is still active. */
  lemma AutoOpenSuccessOpensDoor(v: Variant, h: Host)
    requires h.detectionActive && h.pending.autoOpenSuccess > 0
    ensures Step(v, h, AutoOpenSuccessDue).manager.doorOpen
  {
  }

  /** The stale detection start arms detection on a moving vehicle, and the automatic open then opens its door. */
  lemma StaleDetectionOpensDoorWhileMoving(trace: seq<Event>)
    requires trace == StaleDetectionTrace
    ensures var h := Run(AsWritten, Init(), trace);
      && h.manager.vehicleMoving && h.detectionActive && !h.manager.doorOpen
      && Step(AsWritten, h, AutoOpenSuccessDue).manager.doorOpen
  {
    ParkFacts(AsWritten);
    var h1 := Run(AsWritten, Init(), Park);
    ShutDoorFacts(AsWritten, h1);
    var h2 := Run(AsWritten, h1, ShutDoor);
    LeaveFacts(h2);
    var h3 := Run(AsWritten, h2, [PressMove]);
    ArmFacts(AsWritten, h3);
    var h4 := Run(AsWritten, h3, Arm);
    RunDownFacts(AsWritten, h4);
    var h5 := Run(AsWritten, h4, RunDown);
    AlertAndReleaseFacts(AsWritten, h5);
    AutoOpenSuccessOpensDoor(AsWritten, Run(AsWritten, h5, AlertAndRelease));
    RunAppend(AsWritten, Init(), Park, ShutDoor);
    RunAppend(AsWritten, Init(), Park + ShutDoor, [PressMove]);
    RunAppend(AsWritten, Init(), Park + ShutDoor + [PressMove], Arm);
    RunAppend(AsWritten, Init(), Park + ShutDoor + [PressMove] + Arm, RunDown);
    RunAppend(AsWritten, Init(), Park + ShutDoor + [PressMove] + Arm + RunDown, AlertAndRelease);
  }

  // ---------------------------------------------------------------------------------------------
  // After a successful automatic open the Move control is still enabled.

  /**
   When the automatic open takes effect with Move enabled, Move can then be pressed: the vehicle
   moves with the manager's door open, while the door flags read fully closed.
   */
  lemma MoveAfterAutoOpen(v: Variant, h: Host)
    requires h.detectionActive && h.controls.move && h.pending.autoOpenSuccess > 0
    ensures var r := Run(v, h, [AutoOpenSuccessDue, PressMove]);
      r.manager.doorOpen && r.manager.vehicleMoving && r.doorFullyClosed && !r.doorFullyOpen
  {
    var t := [AutoOpenSuccessDue, PressMove];
    assert t[1..][1..] == [];
  }

  /** This state is reachable with the corrected continuations: park, close the door, detect an occupant, release it. */
  lemma AutoReleaseLeavesMoveEnabled(trace: seq<Event>)
    requires trace == AutoReleaseTrace
    ensures var h := Run(Corrected, Init(), trace);
      && h.detectionActive && h.controls.move && h.pending.autoOpenSuccess > 0
      && var r := Run(Corrected, h, [AutoOpenSuccessDue, PressMove]);
        r.manager.doorOpen && r.manager.vehicleMoving && r.doorFullyClosed
  {
    ParkFacts(Corrected);
    var h1 := Run(Corrected, Init(), Park);
    ShutDoorFacts(Corrected, h1);
    var h2 := Run(Corrected, h1, ShutDoor);
    ArmFacts(Corrected, h2);
    var h3 := Run(Corrected, h2, Arm);
    RunDownFacts(Corrected, h3);
    var h4 := Run(Corrected, h3, RunDown);
    AlertAndReleaseFacts(Corrected, h4);
    var h5 := Run(Corrected, h4, AlertAndRelease);
    MoveAfterAutoOpen(Corrected, h5);
    RunAppend(Corrected, Init(), Park, ShutDoor);
    RunAppend(Corrected, Init(), Park + ShutDoor, Arm);
    RunAppend(Corrected, Init(), Park + ShutDoor + Arm, RunDown);
    RunAppend(Corrected, Init(), Park + ShutDoor + Arm + RunDown, AlertAndRelease);
  }

  // ---------------------------------------------------------------------------------------------
  // An engine restart with the door open also leaves Move enabled.

  /** Open the door of the parked vehicle and shut the engine down. */
  const OpenAndShutDown: seq<Event> := [PressOpen, ShutdownRequested, EngineOffDue]
  /** Bring the engine up again and press Move. */
  const RestartAndMove: seq<Event> := [EngineReady, PressMove]
  const RestartWithDoorOpen: seq<Event> := OpenAndShutDown + RestartAndMove

  lemma OpenAndShutDownFacts(v: Variant, h: Host)
    requires h.vehicleStoppedCompletely && h.controls.open && !h.manager.vehicleMoving && !h.manager.doorOpen
    ensures var r := Run(v, h, OpenAndShutDown);
      r.manager.doorOpen && !r.manager.vehicleMoving && r.doorFullyClosed && !r.doorFullyOpen
  {
    var t := OpenAndShutDown;
    assert t[1..][1..][1..] == [];
  }

  lemma RestartAndMoveFacts(v: Variant, h: Host)
    requires h.manager.doorOpen && !h.manager.vehicleMoving
    ensures var r := Run(v, h, RestartAndMove);
      r.manager.doorOpen && r.manager.vehicleMoving && r.doorFullyClosed && !r.doorFullyOpen
  {
    var t := RestartAndMove;
    assert t[1..][1..] == [];
  }

  /**
   The shutdown reset marks the door fully closed without closing it, and the restart enables Move:
   the vehicle then moves with the manager's door open.
   */
  lemma RestartFacts(v: Variant, h: Host)
    requires h.vehicleStoppedCompletely && h.controls.open && !h.manager.vehicleMoving && !h.manager.doorOpen
    ensures var r := Run(v, h, RestartWithDoorOpen);
      r.manager.doorOpen && r.manager.vehicleMoving && r.doorFullyClosed && !r.doorFullyOpen
  {
    OpenAndShutDownFacts(v, h);
    RestartAndMoveFacts(v, Run(v, h, OpenAndShutDown));
    RunAppend(v, h, OpenAndShutDown, RestartAndMove);
  }

  /** This happens with either variant: park, open the door, restart the engine, press Move. */
  lemma EngineRestartDrivesOffWithDoorOpen(v: Variant, trace: seq<Event>)
    requires trace == Park + RestartWithDoorOpen
    ensures var h := Run(v, Init(), trace);
      h.manager.doorOpen && h.manager.vehicleMoving && h.doorFullyClosed && !h.doorFullyOpen
  {
    ParkFacts(v);
    RestartFacts(v, Run(v, Init(), Park));
    RunAppend(v, Init(), Park, RestartWithDoorOpen);
  }
}

=== FILE: state_manager.dfy ===
/**
 The simulator's vehicle/door/engine record (`StateManager` in state_manager.py).
 Every operation is a pure function returning the updated record.
 */
module StateManager {

  datatype Manager = Manager(vehicleMoving: bool, vehicleStopped: bool, doorOpen: bool, engineOn: bool)

  /** A freshly constructed manager: nothing moving, stopped, open or running. */
  function Fresh(): (m: Manager)
    ensures !m.vehicleMoving && !m.vehicleStopped && !m.doorOpen && !m.engineOn
  {
    Manager(false, false, false, false)
  }

  /** The vehicle starts moving with the engine on; the door is left as it was. */
  function StartVehicle(m: Manager): (r: Manager)
    ensures r.vehicleMoving && !r.vehicleStopped && r.engineOn
    ensures r.doorOpen == m.doorOpen
  {
    m.(vehicleMoving := true, vehicleStopped := false, engineOn := true)
  }

  /** The vehicle stops; engine and door are left as they were. */
  function StopVehicle(m: Manager): (r: Manager)
    ensures !r.vehicleMoving && r.vehicleStopped
    ensures r.engineOn == m.engineOn && r.doorOpen == m.doorOpen
  {
    m.(vehicleMoving := false, vehicleStopped := true)
  }

  function OpenDoor(m: Manager): (r: Manager)
    ensures r.doorOpen
    ensures r.(doorOpen := m.doorOpen) == m
  {
    m.(doorOpen := true)
  }

  function CloseDoor(m: Manager): (r: Manager)
    ensures !r.doorOpen
    ensures r.(doorOpen := m.doorOpen) == m
  {
    m.(doorOpen := false)
  }

  function TurnOffEngine(m: Manager): (r: Manager)
    ensures !r.engineOn
    ensures r.(engineOn := m.engineOn) == m
  {
    m.(engineOn := false)
  }

  /** Opening or closing twice is the same as doing it once. */
  lemma DoorOperationsIdempotent(m: Manager)
    ensures OpenDoor(OpenDoor(m)) == OpenDoor(m)
    ensures CloseDoor(CloseDoor(m)) == CloseDoor(m)
  {
  }

  datatype Op = Start | Stop | Open | Close | EngineOff

  function Apply(m: Manager, op: Op): Manager
  {
    match op
    case Start => StartVehicle(m)
    case Stop => StopVehicle(m)
    case Open => OpenDoor(m)
    case Close => CloseDoor(m)
    case EngineOff => TurnOffEngine(m)
  }

  function Run(m: Manager, ops: seq<Op>): Manager
    decreases |ops|
  {
    if |ops| == 0 then m else Run(Apply(m, ops[0]), ops[1..])
  }

  /** The vehicle is never both moving and stopped. */
  ghost predicate Consistent(m: Manager)
  {
    !(m.vehicleMoving && m.vehicleStopped)
  }

  lemma ApplyKeepsConsistent(m: Manager, op: Op)
    requires Consistent(m)
    ensures Consistent(Apply(m, op))
  {
  }

  lemma {:induction false} RunKeepsConsistent(m: Manager, ops: seq<Op>)
    requires Consistent(m)
    ensures Consistent(Run(m, ops))
    decreases |ops|
  {
    if |ops| > 0 {
      ApplyKeepsConsistent(m, ops[0]);
      RunKeepsConsistent(Apply(m, ops[0]), ops[1..]);
    }
  }

  /** Starting from a fresh manager, no sequence of operations makes the vehicle moving and stopped at once. */
  lemma NeverMovingAndStopped(ops: seq<Op>)
    ensures !(Run(Fresh(), ops).vehicleMoving && Run(Fresh(), ops).vehicleStopped)
  {
    RunKeepsConsistent(Fresh(), ops);
  }

}

=== FILE: wrappers.dfy ===
/** Optional values, standing in for Python's `None` and for settings that fail to parse. */
module Wrappers {

  datatype Option<+T> = None | Some(value: T)

}
